=== FILE: README.md ===
# Recipe wizard — a Dafny model of the client-side core

The application is a Next.js front end that walks a user through a five-panel
wizard: a landing panel, ingredient detection from a photo, a preference form,
a choice among generated recipes, and a detail view of the chosen recipe. The
work that matters (image analysis, ingredient cleaning, recipe generation)
happens in a backend; the client's job is to keep its state consistent while it
sends requests and interprets whatever comes back.

This project models that client state and the handlers that change it, as
pure Dafny functions over immutable datatypes, and proves what the handlers
promise: how each backend answer shape is classified, what is shown and what is
handed to the next step, which toggles undo each other, which invariants the
forms keep under any sequence of user actions, which parts of a recipe each
view renders, and how the panels slide.

Modules (one file each):

- `Common` (`common.dfy`): `Option`, JavaScript truthiness of optional strings,
  the three outcomes of a backend call (`Response`: an answer, a non-2xx
  status, or a thrown value), and the three shapes of an `ingredients` field
  (array, bare string, anything else).
- `Text` (`text.dfy`): JavaScript `String.prototype.trim` over the ECMAScript
  white-space and line-terminator characters.
- `Lists` (`lists.dfy`): the list idioms the components use — filter out a
  value, toggle a value, filter out an index.
- `Recipes` (`recipes.dfy`): the recipe record, the `recipes` field of a
  generation answer, the selection view's normalisation, and what the
  selection cards and the detail view render.
- `Detector` (`detector.dfy`): the ingredient detection step.
- `Preferences` (`preferences.dfy`): the preference form.
- `Generation` (`generation.dfy`): the stand-alone generation component.
- `Wizard` (`wizard.dfy`): the page that owns the current step and threads
  each step's output into the next.

Backend answers are inputs to the functions that consume them. An asynchronous
handler is modelled as its in-flight state (`Detector.DetectPending`,
`Detector.ProceedPending`, `Preferences.Submitting`, `Generation.CleanPending`,
`Generation.GeneratePending`) and the state once the answer has been applied;
"no request is sent" is stated as the outcome not depending on the answer at
all.

Behaviour of the code worth noting:

- the detection step uploads the one chosen image;
- a hand-added ingredient is accepted whenever it is non-blank after trimming,
  and its trimmed text goes in front of the list;
- "None" is one checkbox among the others in the allergy and avoid lists;
- a free-text allergy is stored trimmed, and it replaces the "Other" marker;
- the page posts the recipe count as the form sent it and wraps any non-array
  list field in a one-element array;
- the page moves to the selection panel on any successful answer, even one
  whose `recipes` field is empty or missing (`Wizard.SelectWithoutRecipes`);
- the page applies whatever answer arrives, whenever it arrives.

## Model

| member | source | states |
|---|---|---|
| Text.Trim | src/components/ImageIngredientDetector.tsx:105-106 | the trimmed text is a contiguous slice of the input with only white space cut from both sides, has no white space at either end, and is empty exactly when the input is blank |
| Text.TrimStart | src/components/RecipePreferencesForm.tsx:44 | the result is a suffix of the input, the cut prefix is all white space, and the result does not start with white space |
| Text.TrimEnd | src/components/RecipePreferencesForm.tsx:44 | the result is a prefix of the input, the cut suffix is all white space, and the result does not end with white space |
| Text.TrimEmptyIffBlank | src/components/ImageIngredientDetector.tsx:105 | the emptiness test on the trimmed text is exactly "the input is all white space" |
| Text.TrimIdempotent | src/components/RecipePreferencesForm.tsx:44-45 | trimming an already trimmed text changes nothing, so the text checked for blankness and the text stored agree |
| Lists.RemoveAll | src/components/RecipePreferencesForm.tsx:50-52 | filtering out a value leaves no copy of it, and leaves a list that does not hold it unchanged |
| Lists.RemoveAllCounts | src/components/RecipePreferencesForm.tsx:50-52 | filtering out a value keeps every other value exactly as often as it occurred |
| Lists.RemoveAllMembers | src/components/RecipePreferencesForm.tsx:35 | filtering keeps only entries of the list, and every entry other than the removed value |
| Lists.RemoveAllAppend | src/components/RecipePreferencesForm.tsx:45 | filtering distributes over concatenation |
| Lists.Toggle | src/components/RecipePreferencesForm.tsx:33-36 | a present option is removed (all copies), an absent one appended at the end; every other option keeps its membership |
| Lists.ToggleTwiceRestores | src/components/RecipePreferencesForm.tsx:54-58 | ticking an unticked option and unticking it again gives back the original list |
| Lists.ToggleTwiceMovesToEnd | src/components/RecipePreferencesForm.tsx:54-58 | unticking and re-ticking a ticked option moves it to the end of the list |
| Lists.DropIndex | src/components/ImageIngredientDetector.tsx:110-112 | filtering by index keeps one entry fewer when the index is in range and all entries otherwise |
| Lists.DropIndexDeletes | src/components/ImageIngredientDetector.tsx:110-112 | filtering by index is exactly deleting that position (the rest in order), and a no-op for an index outside the list |
| Recipes.ForDisplay | src/components/SelectRecipe.tsx:27-35 | a normalised recipe always has a string image, keeps a truthy image and turns a falsy one into the empty string, and keeps every other field |
| Recipes.ForDisplayIdempotent | src/components/SelectRecipe.tsx:29 | normalising twice is normalising once |
| Recipes.MapForDisplay | src/components/SelectRecipe.tsx:27-35 | the mapped list has the same length and its k-th entry is the k-th recipe normalised |
| Recipes.DisplayList | src/components/SelectRecipe.tsx:24-40 | an array of recipes is shown entry by entry, normalised, in order; anything that is not an array shows no card |
| Recipes.CardClick | src/components/SelectRecipe.tsx:56-58 | a clickable card exists only for an array answer, and clicking card k hands on the k-th recipe of the answer normalised |
| Recipes.CardVisibility | src/components/SelectRecipe.tsx:60-80 | a card shows the title and the picture always, the cooking time and the short description exactly when truthy and then with the recipe's own text, and never the ingredients or the full recipe |
| Recipes.DetailVisibility | src/components/SelectedRecipe.tsx:32-76 | the detail view shows the name first, the image, cooking time, description and full recipe exactly when truthy, the whole ingredient list exactly when it is non-empty, each part showing the recipe's own field (the image as its data URL), each part at most once and in a fixed order |
| Recipes.CardShows | src/components/SelectRecipe.tsx:71-80 | a part of a card is rendered exactly when its condition holds |
| Recipes.DetailShows | src/components/SelectedRecipe.tsx:33-76 | a part of the detail view is rendered exactly when its condition holds |
| Recipes.ImageSource | src/components/SelectRecipe.tsx:64 | the image source is the PNG data-URL header followed by the image text, or by `undefined` when the field is missing (`null` is treated the same way) |
| Recipes.DisplayedCardPicture | src/components/SelectRecipe.tsx:56-64 | the card rendered for a recipe shows the header followed by its image text when truthy and by nothing otherwise, never `undefined` |
| Recipes.CardSlots | src/components/SelectRecipe.tsx:60-80 | the parts of a card in render order, each present only under its condition (its meaning is stated by `Recipes.CardVisibility`) |
| Recipes.DetailSlots | src/components/SelectedRecipe.tsx:32-76 | the parts of the detail view in render order, each present only under its condition (its meaning is stated by `Recipes.DetailVisibility`) |
| Recipes.PresentShows | src/components/SelectedRecipe.tsx:33-71 | a conditionally rendered part appears exactly when its condition holds |
| Detector.InitialState | src/components/ImageIngredientDetector.tsx:6-13 | at first render nothing is chosen or detected, "Proceed" is not offered, and submitting before choosing a file shows the fixed "select a file" error |
| Detector.ChangeFile | src/components/ImageIngredientDetector.tsx:15-25 | choosing or clearing a file discards the detected list and the error, so "Proceed" is no longer offered |
| Detector.DetectFailure | src/components/ImageIngredientDetector.tsx:57-62 | a failed detection always shows a non-empty message: the fixed one for a non-2xx answer, the thrown error's message when it has one |
| Detector.HasIngredients | src/components/ImageIngredientDetector.tsx:68 | "Proceed" is offered exactly when the list is an array with at least one entry (a definition; used by `Detector.CleanRequest` and `Detector.Proceed`) |
| Detector.DetectSettle | src/components/ImageIngredientDetector.tsx:45-65 | applying an answer leaves the step idle; an array answer sets no error, every other outcome sets one, and a failed request leaves the list as it was and shows the message `Detector.DetectFailure` gives |
| Detector.DetectPending | src/components/ImageIngredientDetector.tsx:30-32 | while detection is in flight the step is loading with no list and no error |
| Detector.Detect | src/components/ImageIngredientDetector.tsx:27-66 | without a file the fixed error is shown and nothing is detected; an array answer is the list, a bare string s gives [s] with an error, another shape gives [] with an error, a failure gives no list and the message `Detector.DetectFailure` gives; no error is left exactly when a file was chosen and an array came back; the step is idle afterwards |
| Detector.DetectRequest | src/components/ImageIngredientDetector.tsx:33-44 | the chosen file is what the detection request uploads, and with no file no request is made (its meaning is stated by `Detector.DetectWithoutFileIsLocal` and `Detector.DetectWithFileUsesAnswer`) |
| Detector.DetectWithFileUsesAnswer | src/components/ImageIngredientDetector.tsx:38-62 | with a file the request is made and its answer decides the outcome: an array becomes the list, a failure leaves none |
| Detector.DetectWithoutFileIsLocal | src/components/ImageIngredientDetector.tsx:33-37 | without a file no request is made: the result does not depend on any answer |
| Detector.CleanRequest | src/components/ImageIngredientDetector.tsx:79-86 | a clean request is sent exactly when the list is a non-empty array, and it sends that list |
| Detector.ProceedPending | src/components/ImageIngredientDetector.tsx:79-82 | while the clean request is in flight the step is loading with no error, and the list is untouched |
| Detector.Proceed | src/components/ImageIngredientDetector.tsx:78-101 | with no list nothing happens; otherwise the list is handed on exactly when a callback is installed and the answer is an array or a bare string (as [s]), a failure shows the fixed error, the list itself never changes, and the step is idle afterwards |
| Detector.TypeIngredient | src/components/ImageIngredientDetector.tsx:185 | typing replaces the text of the add field and changes nothing else |
| Detector.AddTypedIngredient | src/components/ImageIngredientDetector.tsx:103-108 | typing a non-blank text and adding it puts its trimmed form in front and empties the field; typing only white space adds nothing |
| Detector.AddIngredient | src/components/ImageIngredientDetector.tsx:103-108 | a blank entry changes nothing; otherwise the trimmed text goes in front of the existing list (or starts a list), the rest is kept in order, and the field is cleared |
| Detector.RemoveIngredient | src/components/ImageIngredientDetector.tsx:110-112 | removing at an index deletes exactly that position; a missing list or an index outside it changes nothing |
| Detector.RemoveUndoesAdd | src/components/ImageIngredientDetector.tsx:103-112 | removing the entry just added in front gives back the earlier list |
| Detector.RemoveLastTwice | src/components/ImageIngredientDetector.tsx:110-112 | removing at the old last index a second time is a no-op |
| Preferences.InitialWellFormed | src/components/RecipePreferencesForm.tsx:25-31 | the form starts with no allergies, no avoidances, an empty free-text field, idle, with no restrictions, Asian cuisine and one recipe, and satisfies the form invariant |
| Preferences.DistinctToggle | src/components/RecipePreferencesForm.tsx:33-36 | toggling never introduces a duplicate |
| Preferences.AllergyChange | src/components/RecipePreferencesForm.tsx:33-40 | the clicked allergy flips its membership: an absent one is appended at the end, a present one is filtered out; every other allergy keeps its membership, and the free text is cleared exactly when "Other" is unticked |
| Preferences.AllergyChangeTwice | src/components/RecipePreferencesForm.tsx:33-40 | ticking and unticking an allergy restores the allergy list |
| Preferences.AddOtherAllergy | src/components/RecipePreferencesForm.tsx:42-48 | the free-text allergy is accepted exactly when its trim is non-blank and not yet listed; it is then appended after the remaining entries with "Other" removed, and the field is cleared; a rejected entry changes nothing |
| Preferences.RemoveAllergy | src/components/RecipePreferencesForm.tsx:50-52 | removing a chip filters that allergy out: no copy is left, and the other entries keep their order and their counts |
| Preferences.RemoveAllergyUndoesAppend | src/components/RecipePreferencesForm.tsx:45-52 | removing an allergy just appended gives back the list before it |
| Preferences.AvoidChange | src/components/RecipePreferencesForm.tsx:54-58 | the clicked avoidance flips its membership: an absent one is appended at the end, a present one is filtered out with the other entries kept in order; nothing else in the form changes |
| Preferences.AvoidChangeTwice | src/components/RecipePreferencesForm.tsx:54-58 | ticking and unticking an avoidance restores the list |
| Preferences.SubmitRequest | src/components/RecipePreferencesForm.tsx:60-74 | the submitted request carries the previous step's ingredients and the form's fields, and from a well-formed form its diet, cuisine and count are offered options |
| Preferences.Submitting | src/components/RecipePreferencesForm.tsx:62 | the submit control is disabled while the submission is awaited |
| Preferences.SubmitSettles | src/components/RecipePreferencesForm.tsx:60-74 | the form is loading while the submission is awaited and idle again after it, with every field as it was |
| Preferences.DistinctRemoveAll | src/components/RecipePreferencesForm.tsx:50-52 | removing a chip never introduces a duplicate |
| Preferences.AddOtherKeepsWellFormed | src/components/RecipePreferencesForm.tsx:42-48 | adding the free-text allergy keeps the form invariant, in particular no allergy is listed twice |
| Preferences.AvoidChangeKeepsWellFormed | src/components/RecipePreferencesForm.tsx:167-173 | toggling an offered avoidance keeps the avoid list free of repeats and limited to offered options |
| Preferences.ApplyKeepsWellFormed | src/components/RecipePreferencesForm.tsx:33-58 | every single interaction keeps the form invariant |
| Preferences.Apply | src/components/RecipePreferencesForm.tsx:91-211 | one interaction dispatched to its handler (typing into the free-text field sets its text; the radio buttons set the picked option); its meaning is stated by `Preferences.ApplyKeepsWellFormed` |
| Preferences.RunKeepsWellFormed | src/components/RecipePreferencesForm.tsx:148-211 | under any sequence of interactions diet and cuisine stay options, the count stays 1..3, neither checkbox list repeats a value, the avoid list holds only offered options, and the form is idle between interactions |
| Preferences.ReachableRequestsWellFormed | src/components/RecipePreferencesForm.tsx:64-71 | every request the form can submit asks for one to three recipes of an offered diet and cuisine |
| Generation.CleanSendsRequest | src/components/RecipeGeneration.tsx:21 | a clean request is sent exactly when the list is non-empty (a definition; its meaning is stated by `Generation.CleanPending` and `Generation.CleanEmptyIsLocal`) |
| Generation.CleanPending | src/components/RecipeGeneration.tsx:20-25 | an empty list is cleaned to [] at once; otherwise the cleaned list is absent while the request is pending |
| Generation.Cleaned | src/components/RecipeGeneration.tsx:34-42 | the list read from a cleaning answer (its meaning is stated by `Generation.Clean` and `Generation.CleaningAgreesWithDetection`) |
| Generation.Clean | src/components/RecipeGeneration.tsx:20-44 | after cleaning there is always a list: [] for an empty input, the array answer, [s] for a bare string, [] for another shape, and the original list when the request failed |
| Generation.CleanEmptyIsLocal | src/components/RecipeGeneration.tsx:21-24 | an empty list is cleaned without a request: the answer plays no part |
| Generation.CleaningAgreesWithDetection | src/components/RecipeGeneration.tsx:34-40 | for the same answer, the cleaned list equals the list the detection step would store |
| Generation.GenerateRequest | src/components/RecipeGeneration.tsx:56-60 | the generation request sends the current cleaned list (absent while cleaning), the count and the preferences |
| Generation.GeneratePending | src/components/RecipeGeneration.tsx:50-51 | while generation is in flight the component is loading with no error |
| Generation.Generate | src/components/RecipeGeneration.tsx:49-72 | an error is shown exactly on failure (the fixed message); the callback, when installed, receives the answer's recipes or [] when that field is falsy, so never a falsy value; the component is idle afterwards |
| Generation.PickCount | src/components/RecipeGeneration.tsx:92-101 | the selector only sets the count to 1, 2 or 3 |
| Generation.Apply | src/components/RecipeGeneration.tsx:18-101 | one event dispatched to its handler: new ingredients, a count pick, or a generate click; its meaning is stated by `Generation.RunKeepsCount` |
| Generation.RunKeepsCount | src/components/RecipeGeneration.tsx:13-16 | under any sequence of events the count stays in 1..3 and the component is idle between events |
| Generation.ReachableKeepsCount | src/components/RecipeGeneration.tsx:13-16 | the component starts with one recipe, idle, with no error and no cleaned list, and from there the count stays in 1..3 and it is idle between events |
| Wizard.InitialState | src/app/page.tsx:10-13 | the page starts on the landing panel with no ingredients, and neither the selection nor the detail view has content |
| Wizard.Start | src/app/page.tsx:60 | Start moves to ingredient detection and changes nothing else |
| Wizard.ProceedIngredients | src/app/page.tsx:16-19 | the handed-on list is stored unchanged and the preference form becomes current; recipes and selection are kept |
| Wizard.AsArray | src/app/page.tsx:27-29 | an array field passes through and any other value x becomes [x] |
| Wizard.Payload | src/app/page.tsx:24-30 | every list field of the payload is an array whatever the request held; array fields and the scalar fields arrive unchanged |
| Wizard.PayloadOfFormRequest | src/app/page.tsx:24-30 | shaping a request built by the form gives back exactly that request |
| Wizard.SubmitPreferences | src/app/page.tsx:31-43 | on success the recipes become the answer's field as it is and the selection panel becomes current; on failure the alert is raised and the page is left exactly as it was |
| Wizard.SelectWithoutRecipes | src/app/page.tsx:39-40 | a successful answer with a falsy recipes field still moves to the selection panel, which then has no content |
| Wizard.ChooseRecipe | src/app/page.tsx:93-96 | picking a recipe makes it the selected one and the detail panel current, keeping the recipes |
| Wizard.Back | src/app/page.tsx:108 | Back returns to the selection panel and keeps the recipes and the picked recipe |
| Wizard.BackAfterChoosing | src/app/page.tsx:90-108 | choosing card k and going back shows the same cards again, with the k-th recipe still selected |
| Wizard.PanelsFollowStepOrder | src/app/page.tsx:49-103 | exactly the current panel is on screen; panels of earlier steps are off to the left and those of later steps off to the right |
| Wizard.SelectionMounted | src/app/page.tsx:90 | the selection view has content exactly when the recipes are truthy (a definition) |
| Wizard.DetailMounted | src/app/page.tsx:105 | the detail view has content exactly when a recipe has been picked (a definition) |
| Wizard.PanelOffset | src/app/page.tsx:50-102 | each panel's slide position, written as that panel's own class condition; its meaning is stated by `Wizard.PanelsFollowStepOrder` |
| Wizard.Apply | src/app/page.tsx:16-108 | one page event dispatched to its handler; a card click needs a shown card and Back a mounted detail view; its meaning is stated by `Wizard.RunKeepsConsistent` |
| Wizard.RunKeepsConsistent | src/app/page.tsx:90-110 | under any sequence of events, when the detail panel is current it shows one of the cards the selection view shows for the current recipes, and the selected recipe always has a string image |
| Wizard.ReachableIsConsistent | src/app/page.tsx:10-13 | every page reachable from the first render is consistent |
| Wizard.HandedOnListReachesPayload | src/app/page.tsx:16-30 | the list the detection step hands on reaches the posted payload unchanged through the preference form |

## Left out

- Network I/O: `fetch`, `FormData`, JSON parsing and the URLs are not modelled; each call is an input `Response` (answer, non-2xx status, or thrown value).
- Image preview: `URL.createObjectURL` and the preview URL are presentation only; the chosen file is an opaque identifier.
- The "Proceed" pulse animation and its 600 ms timer (ImageIngredientDetector.tsx:70-76) are presentation only.
- Markup, CSS classes, `next/image` and the console logging are not modelled; rendering is modelled only as which sections appear and in what order.
- The API routes under `src/app/api/` and the Python backend are outside the client core; their answers are inputs.
- Interleavings of asynchronous work: every handler is applied to completion, one at a time; a second click while a request is in flight and a stale answer arriving after the user moved on are not modelled.
- Typing into text fields (`Detector.TypeIngredient`, the free-text allergy field in `Preferences.Apply`) is modelled only as setting the field's text; the browser's input events are not modelled.
- Preferences.Run: the free-text allergy field and the chips' remove buttons are offered in every state, while the page shows them only when "Other" is ticked and only for custom entries; the invariants proved hold all the more for the page's smaller set of interactions.
- Wizard.Payload: `Number(num_recipes)` is modelled as passing the integer through; coercion of a non-numeric value is not modelled, because the form only ever sends 1, 2 or 3.
- Recipes.ImageSource: a `null` image is treated like a missing one, so the text after the header is `undefined` where JavaScript would give `null`; no rendered view reaches this, because cards are built from normalised recipes and the detail view shows the image only when it is truthy.
- Wizard.AsArray: a non-array list field is modelled as a single string; other non-array values (numbers, objects) are wrapped the same way in the source and are not distinguished.
- The selection view's optional "Go to Start" button is never wired by the page and is not modelled.
- RecipeGeneration.tsx is not mounted by the page; it is modelled on its own, with its preferences as an opaque type parameter.
- SelectedRecipe.tsx's Back button is modelled through `Wizard.Back`; the component itself has no state.

=== FILE: common.dfy ===
/**
 Shared vocabulary of the wizard: optional values (the source's `null`),
 the outcome of a backend request, and the shape of an `ingredients` field
 in a backend response.
 */
module Common {

  /** A value that may be absent; `None` stands for `null` or `undefined`. */
  datatype Option<+T> = None | Some(value: T)

  /** JavaScript truthiness of an optional string: present and non-empty. */
  predicate Truthy(o: Option<string>)
  {
    o.Some? && o.value != ""
  }

  /** What a `catch` clause receives: an `Error` object with its message, or any other thrown value. */
  datatype Thrown = ErrorObject(message: string) | NonError

  /**
   The outcome of one `fetch` followed by `res.json()`: the decoded body when
   the response is ok, a response whose status is not ok, or an exception
   (transport failure or a body that is not JSON).
   */
  datatype Response<+T> = Ok(data: T) | NotOk | Threw(thrown: Thrown)

  /**
   The `ingredients` field of a backend response, classified the way the
   client inspects it: an array of strings, a bare string, or anything else
   (missing, null, a number, an object, ...).
   */
  datatype IngredientsField = JArr(items: seq<string>) | JStr(text: string) | JOther
}

=== FILE: detector.dfy ===
/**
 The ingredient detection step: pick one image, have the backend detect the
 ingredients in it, edit the detected list by hand, and hand the list on
 after the backend has cleaned it. Each handler is one atomic transformation
 of the step's state; the backend's answer is an input.
 */
module Detector {
  import opened Common
  import opened Text
  import opened Lists

  /** A file chosen in the file picker; the client never looks inside it. */
  datatype ImageFile = ImageFile(id: nat)

  /**
   The step's local state: the chosen file, whether a request is in flight,
   the ingredient list (`None` before any detection), the error shown, and
   the text of the "add ingredient" field.
   */
  datatype State = State(
    file: Option<ImageFile>,
    loading: bool,
    ingredients: Option<seq<string>>,
    error: Option<string>,
    newIngredient: string)

  const NoFileMessage := "Please select an image file."
  const StringResponseMessage :=
    "Unexpected backend response: received a string instead of an array. Please try again or check backend logs."
  const FormatMessage := "Unexpected backend response format. Please try again or check backend logs."
  const DetectFailedMessage := "Failed to detect ingredients"
  const FallbackMessage := "Error occurred"
  const CleanFailedMessage := "Could not clean ingredients. Please try again."

  /** Nothing chosen, nothing detected, no error, idle. */
  const Initial := State(None, false, None, None, "")

  /**
   At first render nothing is detected, so "Proceed" is not offered and no
   clean request can be sent; submitting before choosing a file shows the
   fixed "select a file" error whatever the backend would have said.
   */
  lemma InitialState(res: Response<IngredientsField>)
    ensures Initial.file == None && !Initial.loading && Initial.newIngredient == ""
    ensures !HasIngredients(Initial) && CleanRequest(Initial) == None
    ensures Detect(Initial, res).error == Some(NoFileMessage) && Detect(Initial, res).ingredients == None
  {
  }

  /** The list is an array with at least one entry; this turns the main button into "Proceed". */
  predicate HasIngredients(st: State)
  {
    st.ingredients.Some? && |st.ingredients.value| > 0
  }

  /** Choosing a file (or clearing the picker) discards the previous detection and error. */
  function ChangeFile(st: State, f: Option<ImageFile>): (r: State)
    ensures r.file == f && r.ingredients == None && r.error == None
    ensures !HasIngredients(r)
    ensures r.loading == st.loading && r.newIngredient == st.newIngredient
  {
    st.(file := f, ingredients := None, error := None)
  }

  /** The message a failed detection request shows: the thrown error's message, or a fixed fallback. */
  function DetectFailure(res: Response<IngredientsField>): (m: string)
    requires !res.Ok?
    ensures m != ""
    ensures res.NotOk? ==> m == DetectFailedMessage
    ensures res.Threw? && res.thrown.ErrorObject? && res.thrown.message != "" ==> m == res.thrown.message
  {
    match res
    case NotOk => DetectFailedMessage
    case Threw(ErrorObject(msg)) => if msg != "" then msg else FallbackMessage
    case Threw(NonError) => FallbackMessage
  }

  /** The file the detection request uploads, or `None` when no request is made. */
  function DetectRequest(st: State): Option<ImageFile>
  {
    st.file
  }

  /** The state while detection is in flight: loading, no list, no error. */
  function DetectPending(st: State): (r: State)
    requires st.file.Some?
    ensures r.loading && r.ingredients == None && r.error == None
    ensures r.file == st.file && r.newIngredient == st.newIngredient
  {
    st.(loading := true, ingredients := None, error := None)
  }

  /**
   Applies the backend's answer to the pending state: the step is idle again,
   an array answer leaves the error as it was, every other outcome sets one,
   and a failed request leaves the list as it was.
   */
  function DetectSettle(p: State, res: Response<IngredientsField>): (r: State)
    ensures !r.loading && r.file == p.file && r.newIngredient == p.newIngredient
    ensures res.Ok? && res.data.JArr? ==> r.error == p.error
    ensures !(res.Ok? && res.data.JArr?) ==> r.error.Some?
    ensures !res.Ok? ==> r.ingredients == p.ingredients && r.error == Some(DetectFailure(res))
  {
    match res
    case Ok(JArr(xs)) => p.(loading := false, ingredients := Some(xs))
    case Ok(JStr(s)) => p.(loading := false, ingredients := Some([s]), error := Some(StringResponseMessage))
    case Ok(JOther) => p.(loading := false, ingredients := Some([]), error := Some(FormatMessage))
    case _ => p.(loading := false, error := Some(DetectFailure(res)))
  }

  /**
   Submitting the detection form. Without a file no request is made and the
   fixed "select a file" error is shown. Otherwise an array becomes the list
   with no error, a bare string `s` becomes `[s]` with an error, any other
   shape becomes `[]` with an error, and a failed request leaves no list and
   an error. No error is left exactly when a file was chosen and the answer
   was an array. The step is idle again afterwards in every case.
   */
  function Detect(st: State, res: Response<IngredientsField>): (r: State)
    ensures !r.loading
    ensures r.file == st.file && r.newIngredient == st.newIngredient
    ensures st.file == None ==> r.ingredients == None && r.error == Some(NoFileMessage)
    ensures st.file.Some? && res.Ok? && res.data.JArr? ==> r.ingredients == Some(res.data.items)
    ensures st.file.Some? && res.Ok? && res.data.JStr? ==>
      r.ingredients == Some([res.data.text]) && r.error == Some(StringResponseMessage)
    ensures st.file.Some? && res.Ok? && res.data.JOther? ==> r.ingredients == Some([]) && r.error == Some(FormatMessage)
    ensures st.file.Some? && !res.Ok? ==> r.ingredients == None && r.error == Some(DetectFailure(res))
    ensures r.error == None <==> st.file.Some? && res.Ok? && res.data.JArr?
  {
    if st.file == None then
      st.(loading := false, ingredients := None, error := Some(NoFileMessage))
    else
      DetectSettle(DetectPending(st), res)
  }

  /** Without a file the outcome does not depend on any backend answer: no request is made. */
  lemma DetectWithoutFileIsLocal(st: State, a: Response<IngredientsField>, b: Response<IngredientsField>)
    requires DetectRequest(st) == None
    ensures Detect(st, a) == Detect(st, b)
  {
  }

  /**
   With a file the request is made and its answer decides the outcome: an
   array answer becomes the list, and a failed request leaves no list.
   */
  lemma DetectWithFileUsesAnswer(st: State, xs: seq<string>)
    requires DetectRequest(st).Some?
    ensures Detect(st, Ok(JArr(xs))).ingredients == Some(xs)
    ensures Detect(st, NotOk).ingredients == None
    ensures Detect(st, Ok(JArr(xs))) != Detect(st, NotOk)
  {
  }

  /** The list the clean request sends, or `None` when proceeding is not possible and nothing is sent. */
  function CleanRequest(st: State): (body: Option<seq<string>>)
    ensures body.Some? <==> HasIngredients(st)
    ensures body.Some? ==> Some(body.value) == st.ingredients
  {
    if HasIngredients(st) then st.ingredients else None
  }

  /** The state while the clean request is in flight: loading and no error, with the list untouched. */
  function ProceedPending(st: State): (r: State)
    requires HasIngredients(st)
    ensures r.loading && r.error == None
    ensures r.ingredients == st.ingredients && r.file == st.file && r.newIngredient == st.newIngredient
  {
    st.(loading := true, error := None)
  }

  /** The state after a proceed attempt, and the list handed to the next step, if any. */
  datatype ProceedResult = ProceedResult(state: State, handedOn: Option<seq<string>>)

  /**
   Proceeding: only a non-empty list starts a clean request. An array answer
   is handed on as it is and a bare string `s` as `[s]`, both only when a
   callback is installed; any other shape hands nothing on and shows no error.
   A failed request shows the fixed error. The ingredient list itself is never
   changed, and the step is idle afterwards.
   */
  function Proceed(st: State, res: Response<IngredientsField>, hasCallback: bool): (r: ProceedResult)
    ensures !HasIngredients(st) ==> r.state == st && r.handedOn == None
    ensures r.state.ingredients == st.ingredients && r.state.file == st.file
    ensures r.state.newIngredient == st.newIngredient
    ensures HasIngredients(st) ==> !r.state.loading && (r.state.error.Some? <==> !res.Ok?)
    ensures HasIngredients(st) && !res.Ok? ==> r.state.error == Some(CleanFailedMessage)
    ensures r.handedOn.Some? <==> HasIngredients(st) && hasCallback && res.Ok? && !res.data.JOther?
    ensures r.handedOn.Some? && res.data.JArr? ==> r.handedOn.value == res.data.items
    ensures r.handedOn.Some? && res.data.JStr? ==> r.handedOn.value == [res.data.text]
  {
    if !HasIngredients(st) then
      ProceedResult(st, None)
    else
      var pending := ProceedPending(st);
      match res
      case Ok(JArr(xs)) => ProceedResult(pending.(loading := false), if hasCallback then Some(xs) else None)
      case Ok(JStr(s)) => ProceedResult(pending.(loading := false), if hasCallback then Some([s]) else None)
      case Ok(JOther) => ProceedResult(pending.(loading := false), None)
      case _ => ProceedResult(pending.(loading := false, error := Some(CleanFailedMessage)), None)
  }

  /** Typing into the "add ingredient" field replaces its text and nothing else. */
  function TypeIngredient(st: State, text: string): (r: State)
    ensures r.newIngredient == text
    ensures r.file == st.file && r.loading == st.loading && r.ingredients == st.ingredients && r.error == st.error
  {
    st.(newIngredient := text)
  }

  /**
   Adding the typed ingredient: a blank entry changes nothing; otherwise the
   trimmed text is put in front of the list (a list of its own when there was
   none), nothing else in the list moves, and the field is cleared.
   */
  function AddIngredient(st: State): (r: State)
    ensures IsBlank(st.newIngredient) ==> r == st
    ensures !IsBlank(st.newIngredient) ==>
      && r.ingredients.Some?
      && |r.ingredients.value| == (if st.ingredients.Some? then |st.ingredients.value| + 1 else 1)
      && r.ingredients.value[0] == Trim(st.newIngredient)
      && r.ingredients.value[1..] == (if st.ingredients.Some? then st.ingredients.value else [])
      && r.newIngredient == ""
      && HasIngredients(r)
    ensures r.file == st.file && r.loading == st.loading && r.error == st.error
  {
    var t := Trim(st.newIngredient);
    if t == [] then
      st
    else
      var prev := if st.ingredients.Some? then st.ingredients.value else [];
      assert ([t] + prev)[1..] == prev;
      st.(ingredients := Some([t] + prev), newIngredient := "")
  }

  /**
   Removing the entry at `idx`: exactly that position goes and the rest keep
   their order; an index outside the list and a missing list change nothing.
   */
  function RemoveIngredient(st: State, idx: int): (r: State)
    ensures st.ingredients == None ==> r == st
    ensures st.ingredients.Some? && 0 <= idx < |st.ingredients.value| ==>
      r.ingredients == Some(st.ingredients.value[..idx] + st.ingredients.value[idx + 1..])
    ensures st.ingredients.Some? && !(0 <= idx < |st.ingredients.value|) ==> r == st
    ensures r.file == st.file && r.loading == st.loading && r.error == st.error
    ensures r.newIngredient == st.newIngredient
  {
    match st.ingredients
    case None => st
    case Some(xs) =>
      DropIndexDeletes(xs, idx);
      st.(ingredients := Some(DropIndex(xs, idx)))
  }

  /**
   Typing a non-blank text and adding it puts exactly its trimmed form in
   front of the list and empties the field; typing only white space adds
   nothing.
   */
  lemma AddTypedIngredient(st: State, text: string)
    ensures !IsBlank(text) ==>
      && AddIngredient(TypeIngredient(st, text)).ingredients.Some?
      && AddIngredient(TypeIngredient(st, text)).ingredients.value[0] == Trim(text)
      && AddIngredient(TypeIngredient(st, text)).newIngredient == ""
    ensures IsBlank(text) ==> AddIngredient(TypeIngredient(st, text)).ingredients == st.ingredients
  {
  }

  /** Removing the entry just added in front gives back the list as it was. */
  lemma RemoveUndoesAdd(st: State)
    requires st.ingredients.Some? && !IsBlank(st.newIngredient)
    ensures RemoveIngredient(AddIngredient(st), 0).ingredients == st.ingredients
  {
    var a := AddIngredient(st);
    assert a.ingredients.value[..0] + a.ingredients.value[1..] == a.ingredients.value[1..];
  }

  /**
   Removing the last entry and then removing at the same index again: the
   second removal finds the index out of range and changes nothing.
   */
  lemma RemoveLastTwice(st: State)
    requires HasIngredients(st)
    ensures var i := |st.ingredients.value| - 1;
      RemoveIngredient(RemoveIngredient(st, i), i) == RemoveIngredient(st, i)
  {
  }
}

=== FILE: generation.dfy ===
/**
 The recipe generation component: it cleans the ingredient list it is given
 through the backend, lets the user pick how many recipes to ask for, and
 asks the backend for recipes. Backend answers are inputs.
 */
module Generation {
  import opened Common
  import opened Recipes
  import Preferences
  import Detector

  const GenerateFailedMessage := "Could not generate recipes. Please try again."

  /** The count selector, the in-flight flag, the error shown and the cleaned list (`None` while cleaning). */
  datatype State = State(numRecipes: int, loading: bool, error: Option<string>, cleaned: Option<seq<string>>)

  const Initial := State(1, false, None, None)

  /** Cleaning an empty list is done locally; any other list is sent to the backend. */
  predicate CleanSendsRequest(ingredients: seq<string>)
  {
    |ingredients| > 0
  }

  /** The state right after the ingredients change: `[]` for an empty list, otherwise no list while the request is pending. */
  function CleanPending(st: State, ingredients: seq<string>): (r: State)
    ensures r.cleaned == None <==> CleanSendsRequest(ingredients)
    ensures r.cleaned.Some? ==> r.cleaned.value == []
    ensures r.numRecipes == st.numRecipes && r.loading == st.loading && r.error == st.error
  {
    if |ingredients| == 0 then st.(cleaned := Some([])) else st.(cleaned := None)
  }

  /** The cleaned list for a backend answer; a failed request falls back to the list as given. */
  function Cleaned(ingredients: seq<string>, res: Response<IngredientsField>): seq<string>
  {
    match res
    case Ok(JArr(xs)) => xs
    case Ok(JStr(s)) => [s]
    case Ok(JOther) => []
    case _ => ingredients
  }

  /**
   Cleaning the given ingredients: an empty list gives `[]` without a
   request; otherwise an array answer is the cleaned list, a bare string `s`
   gives `[s]`, any other shape gives `[]`, and a failed request gives back
   exactly the original list. Afterwards there always is a cleaned list.
   */
  function Clean(st: State, ingredients: seq<string>, res: Response<IngredientsField>): (r: State)
    ensures r.cleaned.Some?
    ensures !CleanSendsRequest(ingredients) ==> r.cleaned == Some([])
    ensures CleanSendsRequest(ingredients) && res.Ok? && res.data.JArr? ==> r.cleaned == Some(res.data.items)
    ensures CleanSendsRequest(ingredients) && res.Ok? && res.data.JStr? ==> r.cleaned == Some([res.data.text])
    ensures CleanSendsRequest(ingredients) && res.Ok? && res.data.JOther? ==> r.cleaned == Some([])
    ensures CleanSendsRequest(ingredients) && !res.Ok? ==> r.cleaned == Some(ingredients)
    ensures r.numRecipes == st.numRecipes && r.loading == st.loading && r.error == st.error
  {
    var p := CleanPending(st, ingredients);
    if CleanSendsRequest(ingredients) then p.(cleaned := Some(Cleaned(ingredients, res))) else p
  }

  /** An empty list is cleaned without asking the backend: the answer plays no part. */
  lemma CleanEmptyIsLocal(st: State, a: Response<IngredientsField>, b: Response<IngredientsField>)
    ensures Clean(st, [], a) == Clean(st, [], b)
  {
  }

  /**
   For an answer that arrives, the generation component and the detection
   step read the `ingredients` field the same way: the cleaned list equals
   the list detection would store for the same answer.
   */
  lemma CleaningAgreesWithDetection(st: State, ingredients: seq<string>, d: Detector.State, data: IngredientsField)
    requires CleanSendsRequest(ingredients) && d.file.Some?
    ensures Clean(st, ingredients, Ok(data)).cleaned == Detector.Detect(d, Ok(data)).ingredients
  {
  }

  /** The body of a generation request; `None` preferences are sent as an empty object. */
  datatype GenerateBody<P> = GenerateBody(ingredients: Option<seq<string>>, numRecipes: int, preferences: Option<P>)

  /** The request sends the current cleaned list, which is `null` if cleaning is still pending. */
  function GenerateRequest<P>(st: State, preferences: Option<P>): (b: GenerateBody<P>)
    ensures b.ingredients == st.cleaned && b.numRecipes == st.numRecipes && b.preferences == preferences
  {
    GenerateBody(st.cleaned, st.numRecipes, preferences)
  }

  /** The state while generation is in flight: loading, no error. */
  function GeneratePending(st: State): (r: State)
    ensures r.loading && r.error == None
    ensures r.numRecipes == st.numRecipes && r.cleaned == st.cleaned
  {
    st.(loading := true, error := None)
  }

  /** The state after generating, and what the completion callback receives, if it is called. */
  datatype GenerateResult = GenerateResult(state: State, handedOn: Option<RecipesField>)

  /**
   Generating recipes: on success the callback, when installed, receives the
   answer's `recipes` field, or an empty array when that field is falsy, so
   it never receives a falsy value; no error is shown. On failure the fixed
   error is shown and nothing is handed on. Either way the component is idle
   afterwards and its count and cleaned list are unchanged.
   */
  function Generate(st: State, res: Response<RecipesField>, hasCallback: bool): (r: GenerateResult)
    ensures !r.state.loading
    ensures r.state.error.Some? <==> !res.Ok?
    ensures !res.Ok? ==> r.state.error == Some(GenerateFailedMessage)
    ensures r.handedOn.Some? <==> res.Ok? && hasCallback
    ensures r.handedOn.Some? ==> IsTruthy(r.handedOn.value)
    ensures r.handedOn.Some? && IsTruthy(res.data) ==> r.handedOn.value == res.data
    ensures r.handedOn.Some? && !IsTruthy(res.data) ==> r.handedOn.value == RecipeArray([])
    ensures r.state.numRecipes == st.numRecipes && r.state.cleaned == st.cleaned
  {
    var p := GeneratePending(st);
    match res
    case Ok(data) =>
      GenerateResult(p.(loading := false), if hasCallback then Some(if IsTruthy(data) then data else RecipeArray([])) else None)
    case _ =>
      GenerateResult(p.(loading := false, error := Some(GenerateFailedMessage)), None)
  }

  /** Choosing entry `i` of the count selector; the selector only offers 1, 2 and 3. */
  function PickCount(st: State, i: nat): (r: State)
    requires i < |Preferences.RecipeCounts|
    ensures r.numRecipes in Preferences.RecipeCounts
    ensures r.loading == st.loading && r.error == st.error && r.cleaned == st.cleaned
  {
    st.(numRecipes := Preferences.RecipeCounts[i])
  }

  /** Something that happens to the component. */
  datatype Event =
    | IngredientsGiven(ingredients: seq<string>, cleanAnswer: Response<IngredientsField>)
    | CountPicked(index: nat)
    | GenerateClicked(generateAnswer: Response<RecipesField>, hasCallback: bool)

  predicate Offered(e: Event)
  {
    e.CountPicked? ==> e.index < |Preferences.RecipeCounts|
  }

  function Apply(st: State, e: Event): State
    requires Offered(e)
  {
    match e
    case IngredientsGiven(ings, a) => Clean(st, ings, a)
    case CountPicked(i) => PickCount(st, i)
    case GenerateClicked(a, cb) => Generate(st, a, cb).state
  }

  function Run(st: State, es: seq<Event>): State
    requires forall i :: 0 <= i < |es| ==> Offered(es[i])
    decreases |es|
  {
    if es == [] then st else Run(Apply(st, es[0]), es[1..])
  }

  /** Whatever happens, the requested count stays 1, 2 or 3, and the component is idle between events. */
  lemma {:induction false} RunKeepsCount(st: State, es: seq<Event>)
    requires st.numRecipes in Preferences.RecipeCounts && !st.loading
    requires forall i :: 0 <= i < |es| ==> Offered(es[i])
    ensures Run(st, es).numRecipes in Preferences.RecipeCounts && !Run(st, es).loading
    decreases |es|
  {
    if es != [] {
      RunKeepsCount(Apply(st, es[0]), es[1..]);
    }
  }

  /**
   From the first render on (one recipe, idle, no error, no cleaned list),
   whatever happens, the count stays 1, 2 or 3 and the component is idle
   between events.
   */
  lemma ReachableKeepsCount(es: seq<Event>)
    requires forall i :: 0 <= i < |es| ==> Offered(es[i])
    ensures Initial.numRecipes == 1 && !Initial.loading && Initial.error == None && Initial.cleaned == None
    ensures Run(Initial, es).numRecipes in Preferences.RecipeCounts && !Run(Initial, es).loading
  {
    RunKeepsCount(Initial, es);
  }
}

=== FILE: lists.dfy ===
/**
 The array edits the wizard applies to its string lists, defined the way the
 source writes them (`Array.prototype.filter`, append with a spread) and
 related to independent descriptions of their effect.
 */
module Lists {

  /** Filtering out the elements equal to `x`: every occurrence of `x` goes, and a list without `x` is unchanged. */
  function RemoveAll<T(==)>(s: seq<T>, x: T): (r: seq<T>)
    ensures x !in r
    ensures x !in s ==> r == s
  {
    if s == [] then
      []
    else
      (if s[0] == x then [] else [s[0]]) + RemoveAll(s[1..], x)
  }

  /** Filtering out `x` keeps every other value exactly as often as it occurs. */
  lemma {:induction false} RemoveAllCounts<T>(s: seq<T>, x: T)
    ensures multiset(RemoveAll(s, x)) == multiset(s)[x := 0]
  {
    if s != [] {
      RemoveAllCounts(s[1..], x);
      assert s == [s[0]] + s[1..];
      assert multiset(s) == multiset{s[0]} + multiset(s[1..]);
    }
  }

  /** What filtering keeps: only elements of `s`, and every element of `s` other than `x`. */
  lemma RemoveAllMembers<T>(s: seq<T>, x: T)
    ensures forall k :: 0 <= k < |RemoveAll(s, x)| ==> RemoveAll(s, x)[k] in s
    ensures forall k :: 0 <= k < |s| && s[k] != x ==> s[k] in RemoveAll(s, x)
  {
    var r := RemoveAll(s, x);
    RemoveAllCounts(s, x);
    forall k | 0 <= k < |r| ensures r[k] in s {
      assert r[k] in multiset(r);
    }
    forall k | 0 <= k < |s| && s[k] != x ensures s[k] in r {
      assert multiset(r)[s[k]] == multiset(s)[s[k]] > 0;
    }
  }

  /** Filtering distributes over concatenation, so the kept elements stay in their original order. */
  lemma {:induction false} RemoveAllAppend<T>(a: seq<T>, b: seq<T>, x: T)
    ensures RemoveAll(a + b, x) == RemoveAll(a, x) + RemoveAll(b, x)
  {
    if a == [] {
      assert a + b == b;
    } else {
      assert (a + b)[1..] == a[1..] + b;
      RemoveAllAppend(a[1..], b, x);
    }
  }

  /**
   A checkbox toggle: when `o` is present, filter it out, otherwise append it.
   Membership of `o` flips, membership of every other value is kept, an absent
   `o` is appended at the end and a present one loses every occurrence.
   */
  function Toggle<T(==)>(s: seq<T>, o: T): (r: seq<T>)
    ensures o in r <==> o !in s
    ensures forall k :: 0 <= k < |r| && r[k] != o ==> r[k] in s
    ensures forall k :: 0 <= k < |s| && s[k] != o ==> s[k] in r
    ensures o !in s ==> r == s + [o]
    ensures o in s ==> multiset(r) == multiset(s)[o := 0]
  {
    RemoveAllMembers(s, o);
    RemoveAllCounts(s, o);
    if o in s then RemoveAll(s, o) else s + [o]
  }

  /** Toggling an absent value on and then off again gives back the original list. */
  lemma ToggleTwiceRestores<T>(s: seq<T>, o: T)
    requires o !in s
    ensures Toggle(Toggle(s, o), o) == s
  {
    RemoveAllAppend(s, [o], o);
    assert RemoveAll([o], o) == [];
  }

  /**
   Toggling a present value off and on again does not restore the list: every
   copy of it is gone and a single one now sits at the end.
   */
  lemma ToggleTwiceMovesToEnd<T>(s: seq<T>, o: T)
    requires o in s
    ensures Toggle(Toggle(s, o), o) == RemoveAll(s, o) + [o]
  {
  }

  /** Filtering by position: keep every element whose index differs from `i`. */
  function DropIndex<T>(s: seq<T>, i: int): (r: seq<T>)
    ensures |r| == if 0 <= i < |s| then |s| - 1 else |s|
  {
    if s == [] then [] else (if i == 0 then [] else [s[0]]) + DropIndex(s[1..], i - 1)
  }

  /**
   Dropping position `i` is deleting exactly that position and keeping the
   rest in order; an index outside the list changes nothing.
   */
  lemma {:induction false} DropIndexDeletes<T>(s: seq<T>, i: int)
    ensures 0 <= i < |s| ==> DropIndex(s, i) == s[..i] + s[i + 1..]
    ensures !(0 <= i < |s|) ==> DropIndex(s, i) == s
  {
    if s != [] {
      DropIndexDeletes(s[1..], i - 1);
      if i == 0 {
        assert s[..0] + s[1..] == s[1..];
      } else if 0 < i < |s| {
        assert s[..i] == [s[0]] + s[1..][..i - 1];
        assert s[i + 1..] == s[1..][i..];
      } else {
        assert s == [s[0]] + s[1..];
      }
    }
  }
}

=== FILE: preferences.dfy ===
/**
 The preference form: allergy and "avoid" checkboxes, a free-text extra
 allergy, single-choice diet, cuisine and recipe count, and the request the
 form submits.
 */
module Preferences {
  import opened Common
  import opened Text
  import opened Lists

  const AllergyOptions: seq<string> := ["Nuts", "Eggs", "Fish", "Soy", "Honey", "None", "Other"]
  const DietOptions: seq<string> := ["No restrictions", "Vegetarian", "Vegan", "Pescatarian", "Keto", "Halal", "Kosher"]
  const AvoidOptions: seq<string> := ["Lactose", "Gluten", "Sugar", "Spicy food", "None"]
  const CuisineOptions: seq<string> := ["Asian", "European", "Mediterranean", "Middle Eastern", "No Preference"]
  const RecipeCounts: seq<int> := [1, 2, 3]

  /** The allergy checkbox that opens the free-text field. */
  const OtherMarker := "Other"

  /** The request handed to the wizard on submit. */
  datatype RecipeRequest = RecipeRequest(
    ingredients: seq<string>,
    allergies: seq<string>,
    diet: string,
    avoid: seq<string>,
    cuisine: string,
    numRecipes: int)

  /** The form's local state. */
  datatype Form = Form(
    allergies: seq<string>,
    otherAllergy: string,
    diet: string,
    avoid: seq<string>,
    cuisine: string,
    numRecipes: int,
    loading: bool)

  /** No allergies or avoidances, the first diet and cuisine, one recipe, idle. */
  const Initial := Form([], "", DietOptions[0], [], CuisineOptions[0], 1, false)

  /** No value occurs twice. */
  ghost predicate Distinct(s: seq<string>)
  {
    forall x :: multiset(s)[x] <= 1
  }

  /**
   What the form keeps true between interactions: the single-choice fields
   hold one of their options, the two checkbox lists never hold a value twice,
   the avoid list only holds offered options, and no submit is in flight.
   */
  ghost predicate WellFormed(f: Form)
  {
    && f.diet in DietOptions
    && f.cuisine in CuisineOptions
    && f.numRecipes in RecipeCounts
    && Distinct(f.allergies)
    && Distinct(f.avoid)
    && (forall k :: 0 <= k < |f.avoid| ==> f.avoid[k] in AvoidOptions)
    && !f.loading
  }

  lemma InitialWellFormed()
    ensures WellFormed(Initial)
    ensures Initial.allergies == [] && Initial.avoid == [] && Initial.otherAllergy == "" && !Initial.loading
    ensures Initial.diet == "No restrictions" && Initial.cuisine == "Asian" && Initial.numRecipes == 1
  {
  }

  /** An absent value appended to a list without repeats keeps it without repeats. */
  lemma DistinctAppend(s: seq<string>, x: string)
    requires Distinct(s) && x !in s
    ensures Distinct(s + [x])
  {
    assert multiset(s + [x]) == multiset(s) + multiset{x};
  }

  /** Toggling a checkbox keeps a list without repeats. */
  lemma DistinctToggle(s: seq<string>, o: string)
    requires Distinct(s)
    ensures Distinct(Toggle(s, o))
  {
    if o !in s {
      DistinctAppend(s, o);
    }
  }

  /**
   Clicking an allergy checkbox toggles that option; unticking "Other" also
   empties the free-text field. Nothing else changes.
   */
  function AllergyChange(f: Form, option: string): (r: Form)
    ensures option in r.allergies <==> option !in f.allergies
    ensures option !in f.allergies ==> r.allergies == f.allergies + [option]
    ensures option in f.allergies ==> r.allergies == RemoveAll(f.allergies, option)
    ensures forall k :: 0 <= k < |f.allergies| && f.allergies[k] != option ==> f.allergies[k] in r.allergies
    ensures forall k :: 0 <= k < |r.allergies| && r.allergies[k] != option ==> r.allergies[k] in f.allergies
    ensures r.otherAllergy == if option == OtherMarker && OtherMarker in f.allergies then "" else f.otherAllergy
    ensures r.diet == f.diet && r.avoid == f.avoid && r.cuisine == f.cuisine
    ensures r.numRecipes == f.numRecipes && r.loading == f.loading
  {
    f.(allergies := Toggle(f.allergies, option),
       otherAllergy := if option == OtherMarker && OtherMarker in f.allergies then "" else f.otherAllergy)
  }

  /** Ticking an unticked allergy and unticking it again restores the allergy list. */
  lemma AllergyChangeTwice(f: Form, option: string)
    requires option !in f.allergies
    ensures AllergyChange(AllergyChange(f, option), option).allergies == f.allergies
  {
    ToggleTwiceRestores(f.allergies, option);
  }

  /**
   Adding the free-text allergy: accepted exactly when the trimmed text is
   not blank and not already listed. Then "Other" leaves the list, the trimmed
   text goes at the end after the remaining entries in their order, and the
   field is cleared. A rejected entry changes nothing.
   */
  function AddOtherAllergy(f: Form): (r: Form)
    ensures var t := Trim(f.otherAllergy);
      && (r != f <==> !IsBlank(f.otherAllergy) && t !in f.allergies)
      && (r != f ==>
           && |r.allergies| > 0
           && r.allergies[|r.allergies| - 1] == t
           && r.allergies[..|r.allergies| - 1] == RemoveAll(f.allergies, OtherMarker)
           && (t != OtherMarker ==> OtherMarker !in r.allergies)
           && r.otherAllergy == "")
    ensures r.diet == f.diet && r.avoid == f.avoid && r.cuisine == f.cuisine
    ensures r.numRecipes == f.numRecipes && r.loading == f.loading
  {
    var t := Trim(f.otherAllergy);
    if t != [] && t !in f.allergies then
      var kept := RemoveAll(f.allergies, OtherMarker);
      var added := kept + [t];
      assert added[..|kept|] == kept && added[|kept|] == t;
      assert f.otherAllergy != "";
      f.(allergies := added, otherAllergy := "")
    else
      f
  }

  /** Removing an added allergy chip drops every copy of it; the rest keep their order. */
  function RemoveAllergy(f: Form, allergy: string): (r: Form)
    ensures allergy !in r.allergies
    ensures r.allergies == RemoveAll(f.allergies, allergy)
    ensures multiset(r.allergies) == multiset(f.allergies)[allergy := 0]
    ensures r.otherAllergy == f.otherAllergy && r.diet == f.diet && r.avoid == f.avoid
    ensures r.cuisine == f.cuisine && r.numRecipes == f.numRecipes && r.loading == f.loading
  {
    RemoveAllCounts(f.allergies, allergy);
    f.(allergies := RemoveAll(f.allergies, allergy))
  }

  /** Removing an allergy that was just appended at the end gives back the list before it. */
  lemma RemoveAllergyUndoesAppend(f: Form, a: string)
    requires a !in f.allergies
    ensures RemoveAllergy(f.(allergies := f.allergies + [a]), a).allergies == f.allergies
  {
    RemoveAllAppend(f.allergies, [a], a);
    assert RemoveAll([a], a) == [];
  }

  /** Clicking an "avoid" checkbox toggles that option, exactly like the allergy list; nothing else changes. */
  function AvoidChange(f: Form, option: string): (r: Form)
    ensures option in r.avoid <==> option !in f.avoid
    ensures forall k :: 0 <= k < |f.avoid| && f.avoid[k] != option ==> f.avoid[k] in r.avoid
    ensures forall k :: 0 <= k < |r.avoid| && r.avoid[k] != option ==> r.avoid[k] in f.avoid
    ensures option !in f.avoid ==> r.avoid == f.avoid + [option]
    ensures option in f.avoid ==> r.avoid == RemoveAll(f.avoid, option)
    ensures r.allergies == f.allergies && r.otherAllergy == f.otherAllergy && r.diet == f.diet
    ensures r.cuisine == f.cuisine && r.numRecipes == f.numRecipes && r.loading == f.loading
  {
    f.(avoid := Toggle(f.avoid, option))
  }

  /** Ticking an unticked avoidance and unticking it again restores the list. */
  lemma AvoidChangeTwice(f: Form, option: string)
    requires option !in f.avoid
    ensures AvoidChange(AvoidChange(f, option), option).avoid == f.avoid
  {
    ToggleTwiceRestores(f.avoid, option);
  }

  /** The request the form submits: every field copied from the form, the ingredients from the previous step. */
  function SubmitRequest(f: Form, ingredients: seq<string>): (req: RecipeRequest)
    ensures req.ingredients == ingredients && req.allergies == f.allergies && req.avoid == f.avoid
    ensures req.diet == f.diet && req.cuisine == f.cuisine && req.numRecipes == f.numRecipes
    ensures WellFormed(f) ==> req.numRecipes in RecipeCounts && req.diet in DietOptions && req.cuisine in CuisineOptions
  {
    RecipeRequest(ingredients, f.allergies, f.diet, f.avoid, f.cuisine, f.numRecipes)
  }

  /** A user interaction with the form. */
  datatype Event =
    | ToggleAllergy(option: string)
    | TypeOther(text: string)
    | AddOther
    | RemoveChip(allergy: string)
    | ToggleAvoid(option: string)
    | PickDiet(dietIndex: nat)
    | PickCuisine(cuisineIndex: nat)
    | PickCount(countIndex: nat)
    | Submit(ingredients: seq<string>)

  /** The checkboxes and radio buttons only offer the listed options. */
  predicate Offered(e: Event)
  {
    match e
    case ToggleAllergy(o) => o in AllergyOptions
    case ToggleAvoid(o) => o in AvoidOptions
    case PickDiet(i) => i < |DietOptions|
    case PickCuisine(i) => i < |CuisineOptions|
    case PickCount(i) => i < |RecipeCounts|
    case _ => true
  }

  /** The state the form is in while its submit is awaited: the submit button is disabled. */
  function Submitting(f: Form): (r: Form)
    ensures r.loading
  {
    f.(loading := true)
  }

  /** One interaction, carried out to completion (a submit is awaited and the form is idle again). */
  function Apply(f: Form, e: Event): Form
    requires Offered(e)
  {
    match e
    case ToggleAllergy(o) => AllergyChange(f, o)
    case TypeOther(t) => f.(otherAllergy := t)
    case AddOther => AddOtherAllergy(f)
    case RemoveChip(a) => RemoveAllergy(f, a)
    case ToggleAvoid(o) => AvoidChange(f, o)
    case PickDiet(i) => f.(diet := DietOptions[i])
    case PickCuisine(i) => f.(cuisine := CuisineOptions[i])
    case PickCount(i) => f.(numRecipes := RecipeCounts[i])
    case Submit(_) => Submitting(f).(loading := false)
  }

  /**
   Submitting, carried out to completion: the form was disabled while the
   request was awaited and is idle again afterwards, with every field as it was.
   */
  lemma SubmitSettles(f: Form, ingredients: seq<string>)
    ensures Submitting(f).loading
    ensures !Apply(f, Submit(ingredients)).loading
    ensures Apply(f, Submit(ingredients)) == f.(loading := false)
  {
  }

  /** A sequence of interactions, in order. */
  function Run(f: Form, es: seq<Event>): Form
    requires forall i :: 0 <= i < |es| ==> Offered(es[i])
    decreases |es|
  {
    if es == [] then f else Run(Apply(f, es[0]), es[1..])
  }

  /** Filtering a value out of a list without repeats keeps it without repeats. */
  lemma DistinctRemoveAll(s: seq<string>, x: string)
    requires Distinct(s)
    ensures Distinct(RemoveAll(s, x))
  {
    RemoveAllCounts(s, x);
    forall y ensures multiset(RemoveAll(s, x))[y] <= 1 {
      assert multiset(s)[y] <= 1;
    }
  }

  /** Adding the free-text allergy keeps the form well formed. */
  lemma AddOtherKeepsWellFormed(f: Form)
    requires WellFormed(f)
    ensures WellFormed(AddOtherAllergy(f))
  {
    var t := Trim(f.otherAllergy);
    if t != [] && t !in f.allergies {
      var kept := RemoveAll(f.allergies, OtherMarker);
      DistinctRemoveAll(f.allergies, OtherMarker);
      RemoveAllMembers(f.allergies, OtherMarker);
      assert t !in kept;
      DistinctAppend(kept, t);
    }
  }

  /** Toggling an offered avoidance keeps the form well formed. */
  lemma AvoidChangeKeepsWellFormed(f: Form, o: string)
    requires WellFormed(f) && o in AvoidOptions
    ensures WellFormed(AvoidChange(f, o))
  {
    var r := AvoidChange(f, o);
    DistinctToggle(f.avoid, o);
    forall k | 0 <= k < |r.avoid| ensures r.avoid[k] in AvoidOptions {
      if r.avoid[k] != o {
        assert r.avoid[k] in f.avoid;
      }
    }
  }

  /** Every single interaction keeps the form well formed. */
  lemma ApplyKeepsWellFormed(f: Form, e: Event)
    requires WellFormed(f) && Offered(e)
    ensures WellFormed(Apply(f, e))
  {
    match e
    case ToggleAllergy(o) => DistinctToggle(f.allergies, o);
    case ToggleAvoid(o) => AvoidChangeKeepsWellFormed(f, o);
    case AddOther => AddOtherKeepsWellFormed(f);
    case RemoveChip(a) => DistinctRemoveAll(f.allergies, a);
    case _ =>
  }

  /**
   Whatever the user does, the diet and cuisine stay among their options, the
   recipe count stays in 1..3, neither checkbox list repeats a value, the
   avoid list holds only offered options, and the form is idle between
   interactions.
   */
  lemma {:induction false} RunKeepsWellFormed(f: Form, es: seq<Event>)
    requires WellFormed(f)
    requires forall i :: 0 <= i < |es| ==> Offered(es[i])
    ensures WellFormed(Run(f, es))
    decreases |es|
  {
    if es != [] {
      ApplyKeepsWellFormed(f, es[0]);
      RunKeepsWellFormed(Apply(f, es[0]), es[1..]);
    }
  }

  /** Every request the form can submit asks for one to three recipes of a listed diet and cuisine. */
  lemma ReachableRequestsWellFormed(es: seq<Event>, ingredients: seq<string>)
    requires forall i :: 0 <= i < |es| ==> Offered(es[i])
    ensures var req := SubmitRequest(Run(Initial, es), ingredients);
      req.numRecipes in RecipeCounts && req.diet in DietOptions && req.cuisine in CuisineOptions
  {
    InitialWellFormed();
    RunKeepsWellFormed(Initial, es);
  }
}

=== FILE: recipes.dfy ===
/**
 Recipes as the backend returns them, the normalisation the selection view
 applies before showing them, and which parts of a recipe the selection
 cards and the detail view render.
 */
module Recipes {
  import opened Common

  /** A recipe record; every field but the name may be missing from the backend's JSON. */
  datatype Recipe = Recipe(
    name: string,
    imageBase64: Option<string>,
    imagePath: Option<string>,
    cookingTime: Option<string>,
    ingredients: Option<seq<string>>,
    shortDescription: Option<string>,
    fullRecipe: Option<string>)

  /**
   The `recipes` field of a generation response: a falsy value (missing,
   `null`, ...), an array of recipes, or a truthy value that is not an array.
   */
  datatype RecipesField = NoRecipes | RecipeArray(items: seq<Recipe>) | NonArrayRecipes

  /** JavaScript truthiness of the field; an array is truthy even when empty. */
  predicate IsTruthy(f: RecipesField)
  {
    !f.NoRecipes?
  }

  /** The per-recipe mapping of the selection view: a falsy image becomes the empty string. */
  function ForDisplay(r: Recipe): (d: Recipe)
    ensures d.imageBase64.Some?
    ensures Truthy(d.imageBase64) <==> Truthy(r.imageBase64)
    ensures Truthy(r.imageBase64) ==> d.imageBase64 == r.imageBase64
    ensures d.name == r.name && d.imagePath == r.imagePath && d.cookingTime == r.cookingTime
    ensures d.ingredients == r.ingredients && d.shortDescription == r.shortDescription
    ensures d.fullRecipe == r.fullRecipe
  {
    r.(imageBase64 := Some(if Truthy(r.imageBase64) then r.imageBase64.value else ""))
  }

  /** Normalising an already normalised recipe changes nothing. */
  lemma ForDisplayIdempotent(r: Recipe)
    ensures ForDisplay(ForDisplay(r)) == ForDisplay(r)
  {
  }

  /** Mapping `ForDisplay` over a list, element by element, in order. */
  function MapForDisplay(xs: seq<Recipe>): (ys: seq<Recipe>)
    ensures |ys| == |xs|
    ensures forall k :: 0 <= k < |xs| ==> ys[k] == ForDisplay(xs[k])
  {
    if xs == [] then [] else [ForDisplay(xs[0])] + MapForDisplay(xs[1..])
  }

  /**
   The list the selection view shows for the recipes it is given: a non-empty
   array is mapped element-wise in order, anything else shows nothing.
   */
  function DisplayList(f: RecipesField): (ys: seq<Recipe>)
    ensures f.RecipeArray? ==> |ys| == |f.items|
    ensures f.RecipeArray? ==> forall k :: 0 <= k < |ys| ==> ys[k] == ForDisplay(f.items[k])
    ensures !f.RecipeArray? ==> ys == []
  {
    match f
    case RecipeArray(xs) => if |xs| > 0 then MapForDisplay(xs) else []
    case _ => []
  }

  /** Clicking card `k` of the selection view hands the `k`-th displayed recipe to the selection callback. */
  function CardClick(f: RecipesField, k: nat): (r: Recipe)
    requires k < |DisplayList(f)|
    ensures f.RecipeArray? && k < |f.items|
    ensures r == ForDisplay(f.items[k])
  {
    DisplayList(f)[k]
  }

  /** A rendered part of a recipe. */
  datatype Section =
    | Title(text: string)
    | Picture(source: string)
    | CookingTime(text: string)
    | IngredientList(items: seq<string>)
    | Description(text: string)
    | FullRecipe(text: string)

  /** The kind of a section, with the order in which the views render them. */
  function Rank(s: Section): nat
  {
    match s
    case Title(_) => 0
    case Picture(_) => 1
    case CookingTime(_) => 2
    case IngredientList(_) => 3
    case Description(_) => 4
    case FullRecipe(_) => 5
  }

  /** Some section of rank `k` is rendered. */
  predicate Shows(ss: seq<Section>, k: nat)
  {
    exists j :: 0 <= j < |ss| && Rank(ss[j]) == k
  }

  /** Sections appear in strictly increasing rank, so each kind at most once and in a fixed order. */
  predicate InRenderOrder(ss: seq<Section>)
  {
    forall i, j :: 0 <= i < j < |ss| ==> Rank(ss[i]) < Rank(ss[j])
  }

  /** The data-URL header both views put in front of the image text. */
  const ImagePrefix := "data:image/png;base64,"

  /**
   The image source the views build: the data-URL header followed by the
   field's text, or by `undefined` when the field is missing (a `null` image
   is treated the same way).
   */
  function ImageSource(image: Option<string>): (src: string)
    ensures |src| >= |ImagePrefix| && src[..|ImagePrefix|] == ImagePrefix
    ensures image.Some? ==> src[|ImagePrefix|..] == image.value
    ensures image.None? ==> src[|ImagePrefix|..] == "undefined"
  {
    ImagePrefix + (if image.Some? then image.value else "undefined")
  }

  /** A slot holding a section only when its rendering condition holds. */
  function When(c: bool, s: Section): Option<Section>
  {
    if c then Some(s) else None
  }

  /** The sections of the occupied slots, in slot order. */
  function Present(slots: seq<Option<Section>>): seq<Section>
  {
    if slots == [] then []
    else (if slots[0].Some? then [slots[0].value] else []) + Present(slots[1..])
  }

  /** Slot `i` can only hold a section of rank `b + i`. */
  predicate RankedSlots(slots: seq<Option<Section>>, b: nat)
  {
    forall i :: 0 <= i < |slots| && slots[i].Some? ==> Rank(slots[i].value) == b + i
  }

  /** Every rendered section has the rank of some slot. */
  lemma {:induction false} PresentRanks(slots: seq<Option<Section>>, b: nat)
    requires RankedSlots(slots, b)
    ensures forall j :: 0 <= j < |Present(slots)| ==> b <= Rank(Present(slots)[j]) < b + |slots|
  {
    if slots != [] {
      var rest := slots[1..];
      assert RankedSlots(rest, b + 1) by {
        forall i | 0 <= i < |rest| && rest[i].Some? ensures Rank(rest[i].value) == b + 1 + i {
          assert rest[i] == slots[i + 1];
        }
      }
      PresentRanks(rest, b + 1);
    }
  }

  /** The rendered sections come out in increasing rank. */
  lemma {:induction false} PresentOrdered(slots: seq<Option<Section>>, b: nat)
    requires RankedSlots(slots, b)
    ensures InRenderOrder(Present(slots))
  {
    if slots != [] {
      var rest := slots[1..];
      assert RankedSlots(rest, b + 1) by {
        forall i | 0 <= i < |rest| && rest[i].Some? ensures Rank(rest[i].value) == b + 1 + i {
          assert rest[i] == slots[i + 1];
        }
      }
      PresentOrdered(rest, b + 1);
      PresentRanks(rest, b + 1);
      var head := if slots[0].Some? then [slots[0].value] else [];
      var ss := head + Present(rest);
      forall x, y | 0 <= x < y < |ss| ensures Rank(ss[x]) < Rank(ss[y]) {
        assert ss[y] == Present(rest)[y - |head|];
        if x >= |head| {
          assert ss[x] == Present(rest)[x - |head|];
        }
      }
    }
  }

  /** The section of an occupied slot is rendered. */
  lemma {:induction false} PresentContains(slots: seq<Option<Section>>, i: nat)
    requires i < |slots| && slots[i].Some?
    ensures slots[i].value in Present(slots)
  {
    if i > 0 {
      assert slots[1..][i - 1] == slots[i];
      PresentContains(slots[1..], i - 1);
    }
  }

  /** A rendered section comes from one of the slots. */
  lemma {:induction false} PresentHolds(slots: seq<Option<Section>>, s: Section)
    requires s in Present(slots)
    ensures exists i :: 0 <= i < |slots| && slots[i] == Some(s)
  {
    if slots[0] == Some(s) {
    } else {
      PresentHolds(slots[1..], s);
      var i :| 0 <= i < |slots[1..]| && slots[1..][i] == Some(s);
      assert slots[i + 1] == Some(s);
    }
  }

  /** A section of rank `b + i` is rendered exactly when slot `i` is occupied. */
  lemma PresentShows(slots: seq<Option<Section>>, b: nat, i: nat)
    requires RankedSlots(slots, b) && i < |slots|
    ensures Shows(Present(slots), b + i) <==> slots[i].Some?
  {
    var ss := Present(slots);
    if slots[i].Some? {
      PresentContains(slots, i);
      var j :| 0 <= j < |ss| && ss[j] == slots[i].value;
    }
    if Shows(ss, b + i) {
      var j :| 0 <= j < |ss| && Rank(ss[j]) == b + i;
      PresentHolds(slots, ss[j]);
    }
  }

  /** A selection card: title and picture always, cooking time and short description only when truthy. */
  function CardSlots(r: Recipe): seq<Option<Section>>
  {
    [ Some(Title(r.name)),
      Some(Picture(ImageSource(r.imageBase64))),
      When(Truthy(r.cookingTime), CookingTime(if r.cookingTime.Some? then r.cookingTime.value else "")),
      None,
      When(Truthy(r.shortDescription), Description(if r.shortDescription.Some? then r.shortDescription.value else "")),
      None ]
  }

  function CardSections(r: Recipe): seq<Section>
  {
    Present(CardSlots(r))
  }

  /** The ingredients section is rendered when the list is present and non-empty. */
  predicate HasIngredientList(r: Recipe)
  {
    r.ingredients.Some? && |r.ingredients.value| > 0
  }

  /** The detail view: the name always, every other part only when its field is truthy. */
  function DetailSlots(r: Recipe): seq<Option<Section>>
  {
    [ Some(Title(r.name)),
      When(Truthy(r.imageBase64), Picture(ImageSource(r.imageBase64))),
      When(Truthy(r.cookingTime), CookingTime(if r.cookingTime.Some? then r.cookingTime.value else "")),
      When(HasIngredientList(r), IngredientList(if r.ingredients.Some? then r.ingredients.value else [])),
      When(Truthy(r.shortDescription), Description(if r.shortDescription.Some? then r.shortDescription.value else "")),
      When(Truthy(r.fullRecipe), FullRecipe(if r.fullRecipe.Some? then r.fullRecipe.value else "")) ]
  }

  function DetailSections(r: Recipe): seq<Section>
  {
    Present(DetailSlots(r))
  }

  lemma DetailSlotsRanked(r: Recipe)
    ensures RankedSlots(DetailSlots(r), 0)
  {
  }

  /** The part of rank `i` of the detail view is rendered exactly when slot `i` is occupied. */
  lemma DetailShows(r: Recipe, i: nat)
    requires i < 6
    ensures Shows(DetailSections(r), i) <==> DetailSlots(r)[i].Some?
  {
    DetailSlotsRanked(r);
    PresentShows(DetailSlots(r), 0, i);
  }

  /**
   What the detail view shows: the name always and first, the image exactly
   when `image_base64` is truthy, the cooking time exactly when it is truthy,
   the ingredients exactly when present and non-empty (all of them, in
   order), the description and the full recipe exactly when truthy; each
   part shows the recipe's own field, and every part appears at most once,
   in a fixed order.
   */
  lemma DetailVisibility(r: Recipe)
    ensures |DetailSections(r)| > 0 && DetailSections(r)[0] == Title(r.name)
    ensures Shows(DetailSections(r), 1) <==> Truthy(r.imageBase64)
    ensures Shows(DetailSections(r), 2) <==> Truthy(r.cookingTime)
    ensures Shows(DetailSections(r), 3) <==> HasIngredientList(r)
    ensures Shows(DetailSections(r), 4) <==> Truthy(r.shortDescription)
    ensures Shows(DetailSections(r), 5) <==> Truthy(r.fullRecipe)
    ensures Truthy(r.imageBase64) ==> Picture(ImageSource(r.imageBase64)) in DetailSections(r)
    ensures Truthy(r.cookingTime) ==> CookingTime(r.cookingTime.value) in DetailSections(r)
    ensures HasIngredientList(r) ==> IngredientList(r.ingredients.value) in DetailSections(r)
    ensures Truthy(r.shortDescription) ==> Description(r.shortDescription.value) in DetailSections(r)
    ensures Truthy(r.fullRecipe) ==> FullRecipe(r.fullRecipe.value) in DetailSections(r)
    ensures InRenderOrder(DetailSections(r))
  {
    var slots := DetailSlots(r);
    assert DetailSections(r) == [Title(r.name)] + Present(slots[1..]);
    DetailShows(r, 1);
    DetailShows(r, 2);
    DetailShows(r, 3);
    DetailShows(r, 4);
    DetailShows(r, 5);
    if Truthy(r.imageBase64) {
      PresentContains(slots, 1);
    }
    if Truthy(r.cookingTime) {
      PresentContains(slots, 2);
    }
    if HasIngredientList(r) {
      PresentContains(slots, 3);
    }
    if Truthy(r.shortDescription) {
      PresentContains(slots, 4);
    }
    if Truthy(r.fullRecipe) {
      PresentContains(slots, 5);
    }
    DetailSlotsRanked(r);
    PresentOrdered(slots, 0);
  }

  lemma CardSlotsRanked(r: Recipe)
    ensures RankedSlots(CardSlots(r), 0)
  {
  }

  /** The part of rank `i` of a card is rendered exactly when slot `i` is occupied. */
  lemma CardShows(r: Recipe, i: nat)
    requires i < 6
    ensures Shows(CardSections(r), i) <==> CardSlots(r)[i].Some?
  {
    CardSlotsRanked(r);
    PresentShows(CardSlots(r), 0, i);
  }

  /**
   What a selection card shows: the title and the picture always, the cooking
   time exactly when truthy, the short description exactly when truthy, each
   from the recipe's own field, and never the ingredients or the full recipe.
   */
  lemma CardVisibility(r: Recipe)
    ensures |CardSections(r)| >= 2
    ensures CardSections(r)[0] == Title(r.name)
    ensures CardSections(r)[1] == Picture(ImageSource(r.imageBase64))
    ensures Shows(CardSections(r), 2) <==> Truthy(r.cookingTime)
    ensures Shows(CardSections(r), 4) <==> Truthy(r.shortDescription)
    ensures Truthy(r.cookingTime) ==> CookingTime(r.cookingTime.value) in CardSections(r)
    ensures Truthy(r.shortDescription) ==> Description(r.shortDescription.value) in CardSections(r)
    ensures !Shows(CardSections(r), 3) && !Shows(CardSections(r), 5)
  {
    var slots := CardSlots(r);
    assert CardSections(r) == [Title(r.name)] + Present(slots[1..]);
    assert Present(slots[1..]) == [Picture(ImageSource(r.imageBase64))] + Present(slots[1..][1..]);
    CardShows(r, 2);
    CardShows(r, 3);
    CardShows(r, 4);
    CardShows(r, 5);
    if Truthy(r.cookingTime) {
      PresentContains(slots, 2);
    }
    if Truthy(r.shortDescription) {
      PresentContains(slots, 4);
    }
  }

  /**
   The picture of a card the selection view actually renders: the card is
   built from the normalised recipe, so its source is the header followed by
   the image text when it is truthy and by nothing otherwise, never by
   `undefined`.
   */
  lemma DisplayedCardPicture(r: Recipe)
    ensures |CardSections(ForDisplay(r))| >= 2
    ensures CardSections(ForDisplay(r))[1] ==
      Picture(ImagePrefix + (if Truthy(r.imageBase64) then r.imageBase64.value else ""))
  {
    CardVisibility(ForDisplay(r));
  }
}

=== FILE: text.dfy ===
/**
 String trimming as JavaScript's `String.prototype.trim` performs it: strip
 the characters ECMAScript calls WhiteSpace and LineTerminator from both ends.
 The wizard only ever asks whether a trimmed entry is empty and uses the
 trimmed text itself.
 */
module Text {

  /** ECMAScript WhiteSpace (TAB, VT, FF, SP, NBSP, ZWNBSP, category Zs) and LineTerminator (LF, CR, LS, PS). */
  predicate IsWhitespace(c: char)
  {
    || c == '\t' || c == '\U{B}' || c == '\U{C}' || c == ' ' || c == '\U{A0}' || c == '\U{FEFF}'
    || c == '\U{1680}' || ('\U{2000}' <= c <= '\U{200A}') || c == '\U{202F}' || c == '\U{205F}' || c == '\U{3000}'
    || c == '\n' || c == '\r' || c == '\U{2028}' || c == '\U{2029}'
  }

  /** Every character of `s` is whitespace (vacuously true of the empty string). */
  predicate IsBlank(s: string)
  {
    forall i :: 0 <= i < |s| ==> IsWhitespace(s[i])
  }

  /** A whitespace character in front of a blank string gives a blank string. */
  lemma BlankCons(c: char, t: string)
    requires IsWhitespace(c) && IsBlank(t)
    ensures IsBlank([c] + t)
  {
    forall i | 0 <= i < |[c] + t| ensures IsWhitespace(([c] + t)[i]) {
      if i > 0 {
        assert ([c] + t)[i] == t[i - 1];
      }
    }
  }

  /** Drops leading whitespace: the result is a suffix of `s` that does not start with whitespace. */
  function TrimStart(s: string): (r: string)
    ensures |r| <= |s| && r == s[|s| - |r|..]
    ensures IsBlank(s[..|s| - |r|])
    ensures r == [] || !IsWhitespace(r[0])
  {
    if |s| > 0 && IsWhitespace(s[0]) then
      var r := TrimStart(s[1..]);
      BlankCons(s[0], s[1..][..|s| - 1 - |r|]);
      assert s[..|s| - |r|] == [s[0]] + s[1..][..|s| - 1 - |r|];
      r
    else
      s
  }

  /** Drops trailing whitespace: the result is a prefix of `s` that does not end with whitespace. */
  function TrimEnd(s: string): (r: string)
    ensures |r| <= |s| && r == s[..|r|]
    ensures IsBlank(s[|r|..])
    ensures r == [] || !IsWhitespace(r[|r| - 1])
  {
    if |s| > 0 && IsWhitespace(s[|s| - 1]) then
      var r := TrimEnd(s[..|s| - 1]);
      assert s[|r|..] == s[..|s| - 1][|r|..] + [s[|s| - 1]];
      r
    else
      s
  }

  /** `r` occurs in `s` at offset `a`, and everything before and after it is whitespace. */
  predicate Framed(s: string, r: string, a: int)
  {
    0 <= a <= |s| - |r| && s[a..a + |r|] == r && IsBlank(s[..a]) && IsBlank(s[a + |r|..])
  }

  /**
   `s.trim()`: `s` is the result surrounded by two all-whitespace margins, the
   result neither starts nor ends with whitespace, and it is empty exactly
   when `s` is blank.
   */
  function Trim(s: string): (r: string)
    ensures |r| <= |s|
    ensures exists a :: Framed(s, r, a)
    ensures r == [] || (!IsWhitespace(r[0]) && !IsWhitespace(r[|r| - 1]))
    ensures r == [] <==> IsBlank(s)
  {
    var t := TrimStart(s);
    TrimMargins(s);
    TrimEmptyIffBlank(s);
    TrimEnd(t)
  }

  lemma SliceOfSuffix(s: string, a: nat, n: nat)
    requires a + n <= |s|
    ensures s[a..][..n] == s[a..a + n]
    ensures s[a..][n..] == s[a + n..]
  {
  }

  /** A blank-prefixed suffix of `s`, cut down to a prefix with a blank rest, is framed in `s`. */
  lemma FramedFromParts(s: string, t: string, r: string)
    requires |t| <= |s| && t == s[|s| - |t|..] && IsBlank(s[..|s| - |t|])
    requires |r| <= |t| && r == t[..|r|] && IsBlank(t[|r|..])
    ensures Framed(s, r, |s| - |t|)
  {
    SliceOfSuffix(s, |s| - |t|, |r|);
  }

  /** The result of trimming sits in `s` between two blank margins. */
  lemma TrimMargins(s: string)
    ensures Framed(s, TrimEnd(TrimStart(s)), |s| - |TrimStart(s)|)
  {
    FramedFromParts(s, TrimStart(s), TrimEnd(TrimStart(s)));
  }

  /** Trimming leaves nothing exactly when every character is whitespace. */
  lemma TrimEmptyIffBlank(s: string)
    ensures TrimEnd(TrimStart(s)) == [] <==> IsBlank(s)
  {
    var t := TrimStart(s);
    if TrimEnd(t) == [] {
      BlankWhenTrimmedEmpty(s, t);
    } else {
      NotBlankWhenTrimmedNonEmpty(s, t);
    }
  }

  lemma BlankWhenTrimmedEmpty(s: string, t: string)
    requires t == TrimStart(s) && TrimEnd(t) == []
    ensures IsBlank(s)
  {
    var a := |s| - |t|;
    assert IsBlank(t[0..]);
    assert t[0..] == t;
    assert IsBlank(s[..a]);
    forall i | 0 <= i < |s| ensures IsWhitespace(s[i]) {
      if i < a {
        assert s[i] == s[..a][i];
      } else {
        assert s[i] == t[i - a];
      }
    }
  }

  lemma NotBlankWhenTrimmedNonEmpty(s: string, t: string)
    requires t == TrimStart(s) && TrimEnd(t) != []
    ensures !IsBlank(s)
  {
    var a := |s| - |t|;
    assert t[0] == s[a];
  }

  /** A trimmed string trims to itself, so trimming twice is trimming once. */
  lemma {:induction false} TrimIdempotent(s: string)
    ensures Trim(Trim(s)) == Trim(s)
  {
    var r := Trim(s);
    assert TrimStart(r) == r;
    assert TrimEnd(r) == r;
  }
}

=== FILE: wizard.dfy ===
/**
 The wizard page: which of the five panels is current, the ingredient list
 handed over by the detection step, the recipes the backend generated and
 the recipe the user picked, and the transitions between the panels.
 */
module Wizard {
  import opened Common
  import opened Recipes
  import Preferences
  import Detector

  /** The five panels, in the order the user meets them. */
  datatype Step = StepLanding | StepIngredients | StepPreferences | StepSelect | StepSelected

  /** The page's state; `recipes` starts out falsy and `selected` absent. */
  datatype Wizard = Wizard(step: Step, detected: seq<string>, recipes: RecipesField, selected: Option<Recipe>)

  const Initial := Wizard(StepLanding, [], NoRecipes, None)

  const AlertMessage := "Could not generate recipes. Please try again."

  /** The selection panel has content only when the recipes are truthy. */
  predicate SelectionMounted(w: Wizard)
  {
    IsTruthy(w.recipes)
  }

  /** The detail panel has content only when a recipe has been picked. */
  predicate DetailMounted(w: Wizard)
  {
    w.selected.Some?
  }

  /** At first the landing panel is current and neither the selection nor the detail panel has content. */
  lemma InitialState()
    ensures Initial.step == StepLanding && Initial.detected == []
    ensures !SelectionMounted(Initial) && !DetailMounted(Initial)
  {
  }

  /** The Start button: on to ingredient detection, nothing else changes. */
  function Start(w: Wizard): (r: Wizard)
    ensures r.step == StepIngredients
    ensures r.detected == w.detected && r.recipes == w.recipes && r.selected == w.selected
  {
    w.(step := StepIngredients)
  }

  /** The detection step handed on its list: it is stored as it is and the preference form becomes current. */
  function ProceedIngredients(w: Wizard, ingredients: seq<string>): (r: Wizard)
    ensures r.step == StepPreferences && r.detected == ingredients
    ensures r.recipes == w.recipes && r.selected == w.selected
  {
    w.(detected := ingredients, step := StepPreferences)
  }

  /** A list field as it may arrive at run time: an array, or a single value where an array was expected. */
  datatype Loose = ListValue(items: seq<string>) | SingleValue(item: string)

  /** The request as the page receives it; its list fields are not trusted to be arrays. */
  datatype IncomingRequest = IncomingRequest(
    ingredients: Loose,
    allergies: Loose,
    diet: string,
    avoid: Loose,
    cuisine: string,
    numRecipes: int)

  /** A request built by the preference form, as the page receives it. */
  function FromForm(req: Preferences.RecipeRequest): IncomingRequest
  {
    IncomingRequest(ListValue(req.ingredients), ListValue(req.allergies), req.diet,
                    ListValue(req.avoid), req.cuisine, req.numRecipes)
  }

  /** An array passes through; any other value `x` becomes `[x]`. */
  function AsArray(l: Loose): (xs: seq<string>)
    ensures l.ListValue? ==> xs == l.items
    ensures l.SingleValue? ==> xs == [l.item]
  {
    match l
    case ListValue(items) => items
    case SingleValue(x) => [x]
  }

  /**
   The payload the page posts: the three list fields made into arrays, and
   diet, cuisine and the count copied. Every list field of the payload is an
   array whatever the request held, and a field that already was an array
   arrives unchanged.
   */
  function Payload(req: IncomingRequest): (p: Preferences.RecipeRequest)
    ensures p.diet == req.diet && p.cuisine == req.cuisine && p.numRecipes == req.numRecipes
    ensures req.ingredients.ListValue? ==> p.ingredients == req.ingredients.items
    ensures req.allergies.ListValue? ==> p.allergies == req.allergies.items
    ensures req.avoid.ListValue? ==> p.avoid == req.avoid.items
    ensures req.ingredients.SingleValue? ==> p.ingredients == [req.ingredients.item]
    ensures req.allergies.SingleValue? ==> p.allergies == [req.allergies.item]
    ensures req.avoid.SingleValue? ==> p.avoid == [req.avoid.item]
  {
    Preferences.RecipeRequest(AsArray(req.ingredients), AsArray(req.allergies), req.diet,
                              AsArray(req.avoid), req.cuisine, req.numRecipes)
  }

  /** Shaping a request that came from the form gives back exactly that request. */
  lemma PayloadOfFormRequest(req: Preferences.RecipeRequest)
    ensures Payload(FromForm(req)) == req
  {
  }

  /** The page after a submission, and the alert it raised, if any. */
  datatype SubmitOutcome = SubmitOutcome(wizard: Wizard, alert: Option<string>)

  /**
   Submitting preferences: on success the recipes become the answer's
   `recipes` field as it is, and the selection panel becomes current; on
   failure an alert is raised and the page is left exactly as it was.
   */
  function SubmitPreferences(w: Wizard, res: Response<RecipesField>): (o: SubmitOutcome)
    ensures res.Ok? ==> o.wizard.step == StepSelect && o.wizard.recipes == res.data && o.alert == None
    ensures res.Ok? ==> o.wizard.detected == w.detected && o.wizard.selected == w.selected
    ensures !res.Ok? ==> o.wizard == w && o.alert == Some(AlertMessage)
  {
    match res
    case Ok(data) => SubmitOutcome(w.(recipes := data, step := StepSelect), None)
    case _ => SubmitOutcome(w, Some(AlertMessage))
  }

  /**
   Nothing stops the page from moving on when the answer's `recipes` field is
   falsy: the selection panel becomes current with no content.
   */
  lemma SelectWithoutRecipes(w: Wizard)
    ensures SubmitPreferences(w, Ok(NoRecipes)).wizard.step == StepSelect
    ensures !SelectionMounted(SubmitPreferences(w, Ok(NoRecipes)).wizard)
  {
  }

  /** Picking a recipe: it becomes the selected one and the detail panel becomes current. */
  function ChooseRecipe(w: Wizard, r: Recipe): (v: Wizard)
    ensures v.selected == Some(r) && v.step == StepSelected && DetailMounted(v)
    ensures v.detected == w.detected && v.recipes == w.recipes
  {
    w.(selected := Some(r), step := StepSelected)
  }

  /** The Back button: the selection panel becomes current; the recipes and the picked recipe stay. */
  function Back(w: Wizard): (v: Wizard)
    ensures v.step == StepSelect
    ensures v.detected == w.detected && v.recipes == w.recipes && v.selected == w.selected
  {
    w.(step := StepSelect)
  }

  /**
   Picking card `k` and going back returns to the selection panel with the
   same recipes, so it shows the same cards without asking the backend again.
   */
  lemma BackAfterChoosing(w: Wizard, k: nat)
    requires k < |DisplayList(w.recipes)|
    ensures var v := Back(ChooseRecipe(w, CardClick(w.recipes, k)));
      && v.step == StepSelect && v.recipes == w.recipes
      && DisplayList(v.recipes) == DisplayList(w.recipes)
      && v.selected == Some(ForDisplay(w.recipes.items[k]))
  {
  }

  /** Where a panel sits relative to the viewport. */
  datatype Offset = OnScreen | OffLeft | OffRight

  /** The position of each panel for the current step, as each panel's slide condition decides it. */
  function PanelOffset(panel: Step, current: Step): Offset
  {
    match panel
    case StepLanding =>
      if current == StepLanding then OnScreen else OffLeft
    case StepIngredients =>
      if current == StepIngredients then OnScreen
      else if current == StepPreferences || current == StepSelect || current == StepSelected then OffLeft
      else OffRight
    case StepPreferences =>
      if current == StepPreferences then OnScreen
      else if current == StepSelect || current == StepSelected then OffLeft
      else OffRight
    case StepSelect =>
      if current == StepSelect then OnScreen
      else if current == StepSelected then OffLeft
      else OffRight
    case StepSelected =>
      if current == StepSelected then OnScreen else OffRight
  }

  /** The position of a step in the wizard's order. */
  function Position(s: Step): nat
  {
    match s
    case StepLanding => 0
    case StepIngredients => 1
    case StepPreferences => 2
    case StepSelect => 3
    case StepSelected => 4
  }

  /**
   Exactly the current panel is on screen; the panels of earlier steps have
   slid off to the left and those of later steps wait on the right.
   */
  lemma PanelsFollowStepOrder(panel: Step, current: Step)
    ensures PanelOffset(panel, current) == OnScreen <==> panel == current
    ensures PanelOffset(panel, current) == OffLeft <==> Position(panel) < Position(current)
    ensures PanelOffset(panel, current) == OffRight <==> Position(panel) > Position(current)
  {
  }

  /** Something the user does, or an answer that arrives, on the page. */
  datatype Event =
    | StartClicked
    | IngredientsHandedOn(ingredients: seq<string>)
    | PreferencesSubmitted(request: IncomingRequest, answer: Response<RecipesField>)
    | CardClicked(card: nat)
    | BackClicked

  /**
   One event. A card can only be clicked when the selection panel shows it,
   and Back only exists while the detail panel has content; clicks on
   anything else are not possible and change nothing.
   */
  function Apply(w: Wizard, e: Event): Wizard
  {
    match e
    case StartClicked => Start(w)
    case IngredientsHandedOn(ings) => ProceedIngredients(w, ings)
    case PreferencesSubmitted(_, res) => SubmitPreferences(w, res).wizard
    case CardClicked(k) => if k < |DisplayList(w.recipes)| then ChooseRecipe(w, CardClick(w.recipes, k)) else w
    case BackClicked => if DetailMounted(w) then Back(w) else w
  }

  function Run(w: Wizard, es: seq<Event>): Wizard
    decreases |es|
  {
    if es == [] then w else Run(Apply(w, es[0]), es[1..])
  }

  /**
   What every reachable page satisfies: when the detail panel is current it
   has content, namely one of the cards the selection view shows for the
   current recipes, and a picked recipe is always one the selection view
   normalised (its image is a string).
   */
  predicate Consistent(w: Wizard)
  {
    && (w.step == StepSelected ==> DetailMounted(w) && w.selected.value in DisplayList(w.recipes))
    && (w.selected.Some? ==> w.selected.value.imageBase64.Some?)
  }

  lemma {:induction false} RunKeepsConsistent(w: Wizard, es: seq<Event>)
    requires Consistent(w)
    ensures Consistent(Run(w, es))
    decreases |es|
  {
    if es != [] {
      var e := es[0];
      if e.CardClicked? && e.card < |DisplayList(w.recipes)| {
        assert CardClick(w.recipes, e.card) == DisplayList(w.recipes)[e.card];
        assert CardClick(w.recipes, e.card).imageBase64.Some?;
      }
      assert Consistent(Apply(w, e));
      RunKeepsConsistent(Apply(w, e), es[1..]);
    }
  }

  /** From the first render on, whatever happens, the page stays consistent. */
  lemma ReachableIsConsistent(es: seq<Event>)
    ensures Consistent(Run(Initial, es))
  {
    RunKeepsConsistent(Initial, es);
  }

  /**
   The list the detection step hands on travels unchanged through the page
   and the preference form into the payload the page posts.
   */
  lemma HandedOnListReachesPayload(w: Wizard, d: Detector.State, res: Response<IngredientsField>, f: Preferences.Form)
    requires Detector.Proceed(d, res, true).handedOn.Some?
    ensures var list := Detector.Proceed(d, res, true).handedOn.value;
      var w2 := ProceedIngredients(w, list);
      Payload(FromForm(Preferences.SubmitRequest(f, w2.detected))).ingredients == list
  {
  }
}
